=== FILE: README.md ===
# pg_logger in Dafny

A model of the core of `pg_logger`, a PostgreSQL extension that forwards every
server log event to a remote log-ingestion endpoint over HTTP and keeps four
event counters in shared memory that survive a clean restart through a small
binary snapshot file.

The model has six modules, one file each:

- `ByteOrder` (`byte_order.dfy`): `uint32`/`uint64` and their little-endian byte images,
  with both round trips proved.
- `SharedCounters` (`shared_counters.dfy`): the `pg_logger_counter` block as a class
  `CounterStore` with four fields, the `reset` and `get` entry points, and the additive merge
  (addition modulo 2^64, as `pg_atomic_add_fetch_u64` does).
- `SnapshotFormat` (`snapshot_format.dfy`): the 40-byte record (header with magic
  `0xF0000001` and the server major version, then the four counters), its encoder and the
  decoder that the two `fread` calls amount to.
- `Files` (`files.dfy`): the file system as a class over `map<Path, seq<byte>>` with open,
  create, append, rename and unlink. Each refusal the operating system may make is a flag
  the environment chooses: an open may fail whether or not the file exists, and an ignored
  `unlink` failure is included.
- `Persistence` (`persistence.dfy`): `pg_logger_shmem_startup_internal` and
  `pg_logger_shmem_shutdown` as methods. Each is proved equal in effect to a pure function
  (`Load`, `Dump`). The lemmas about those functions give the dump-then-load round trip, the
  rejection of bad headers, and the rule that a snapshot is never applied twice once its
  unlink succeeds. The dump buffers its two `fwrite` calls in the stream and flushes them
  when the file is closed, after the rename, as the C code does; `DumpClosingFirst` is the
  same dump with the close moved before the rename (see Findings).
- `EventForwarder` (`event_forwarder.dfy`): the `snprintf` payload as a pure function, and
  the log hook as methods that return the sequence of actions they take. The actions are:
  call the previous hook, POST, raise the failure, release the handle.

Modelling choices:

- The server's major version (`PG_MAJORVERSION_NUM`) is fixed when the extension is built.
  Here it is the parameter `pgVersion` of load and dump, so the model can show that a
  snapshot written by one major version is discarded by another.
- Atomic counter operations run one after another as plain field updates.
- The snapshot's byte order is fixed to little-endian.
- Warnings become outcome tags (`LoadOutcome`, `DumpOutcome`).
- A message is the text of a C string: characters before the terminating NUL, one
  character per byte.

Behaviours of the code worth knowing:

- A snapshot is refused only when it is too short for the 40-byte record. Trailing bytes
  are ignored (`DecodeRecord`). A record of exactly 40 bytes is not required.
- `snprintf` truncates the whole formatted text, not the message. A message of 949
  characters or more therefore loses the closing `"}` and newline, and the payload is not
  valid JSON (`LongMessageLosesSuffix`). The message is also inserted without JSON
  escaping. The payload is complete exactly when the message has at most 946 characters
  (`FormatPayload`).
- On a transport failure, `elog(ERROR)` does not return, so the request handle is not
  released on that path (`Forwards`: `Cleanup` occurs exactly when the transfer succeeded).
- The columns returned by `get` are named `messages_processed` and `messages_dropped`, but
  they carry `statement_cancel` and `statement_timeout` (`CounterStore.Get`).
- The columns are declared `bigint` (signed) and filled from unsigned counters, so a counter
  of 2^63 or more reads back as a negative number (`AsBigint`).
- The result of the load's `unlink` is ignored. If the unlink fails, the snapshot stays and
  the next first-time startup merges it again (`FailedUnlinkAppliesAgain`).

## Model

| member | source | states |
|---|---|---|
| `ByteOrder.LeValueOfLeBytes` | pg_logger.c:32-44 | reading back the n-byte image of a value below 256^n gives that value |
| `ByteOrder.LeBytesOfLeValue` | pg_logger.c:32-44 | the image of a value read from bytes is those same bytes |
| `ByteOrder.U32Of` | pg_logger.c:32-36 | the uint32 read from four bytes writes back as those four bytes |
| `ByteOrder.U64Of` | pg_logger.c:38-44 | the uint64 read from eight bytes writes back as those eight bytes |
| `ByteOrder.U32RoundTrip` | pg_logger.c:32-36 | a uint32 field written and read back is unchanged |
| `ByteOrder.U64RoundTrip` | pg_logger.c:38-44 | a uint64 field written and read back is unchanged |
| `SharedCounters.AddWrap` | pg_logger.c:333-336 | counter addition is exact below 2^64 and wraps by 2^64 above it |
| `SharedCounters.Merge` | pg_logger.c:333-336 | merging into a zero block yields the delta; merging a zero delta leaves the block unchanged |
| `SharedCounters.CounterStore.Reset` | pg_logger.c:131-138 | all four counters are zero afterwards, and only the block is written |
| `SharedCounters.AsBigint` | pg_logger.c:159-183 | the signed `bigint` reading keeps the counter's 64 bits: it is the one signed 64-bit value congruent to the counter modulo 2^64 |
| `SharedCounters.CounterStore.Get` | pg_logger.c:145-187 | exactly four non-null bigint columns, named messages_processed, messages_dropped, lock_timeout, idle_in_tx_timeout, carrying statement_cancel, statement_timeout, lock_timeout, idle_in_tx_timeout in that order, each as its signed 64-bit reading |
| `SharedCounters.CounterStore.Add` | pg_logger.c:333-336 | each counter becomes its old value plus the snapshot's, modulo 2^64 |
| `SharedCounters.ResetThenGet` | pg_logger.c:131-138 | a reset followed by a read reports four zero, non-null values |
| `SnapshotFormat.CurrentHeader` | pg_logger.c:355-356 | the header a dump writes passes the load's header check for the same version |
| `SnapshotFormat.ValidHeaderOnBytes` | pg_logger.c:316-330 | a loaded header passes the check exactly when its 8 bytes are the ones a dump by the running server's major version writes |
| `SnapshotFormat.EncodeRecord` | pg_logger.c:373-374 | the 40 bytes written are the magic at offset 0, the version at 4, then statement_cancel, statement_timeout, lock_timeout and idle_in_tx_timeout at 8, 16, 24 and 32 |
| `SnapshotFormat.DecodeHeader` | pg_logger.c:316 | the header read from 8 bytes re-encodes to those bytes |
| `SnapshotFormat.DecodeCounters` | pg_logger.c:317 | the counters read from 32 bytes re-encode to those bytes |
| `SnapshotFormat.HeaderRoundTrip` | pg_logger.c:32-36 | a header written and read back is unchanged |
| `SnapshotFormat.CountersRoundTrip` | pg_logger.c:38-44 | a counter block written and read back is unchanged |
| `SnapshotFormat.DecodeRecord` | pg_logger.c:316-323 | a read fails exactly when the file is shorter than 40 bytes; otherwise the result is what its first 40 bytes encode |
| `SnapshotFormat.RecordRoundTrip` | pg_logger.c:373-374 | the record the dump writes decodes to the same header and counters, whatever bytes follow it |
| `Persistence.Load` | pg_logger.c:286-343 | an existing block and the files stay untouched; with no file the counters are zero, no file changes, and the outcome is `OpenError` if the open failed for a reason other than a missing file, else `Absent`; otherwise the file is removed (kept if the unlink is refused) and nothing else changes; anything not merged leaves zeros; a short file is never merged; what is merged is what the first 40 bytes record under a valid header |
| `Persistence.ShmemStartupInternal` | pg_logger.c:265-344 | the method's effect on the block, the files and the outcome is `Load`; a found block and the files are unchanged |
| `Persistence.Dump` | pg_logger.c:349-382 | a crash exit or an unattached block writes nothing; only the temporary and the canonical path change; if a write or the rename fails the canonical file is untouched; on success it holds the whole record and the temporary is gone; if only the flush at close fails it holds a proper prefix of the record and the old snapshot is gone; success exactly when not skipped and no step fails |
| `Persistence.ShmemShutdown` | pg_logger.c:349-382 | the method's effect on the files and the outcome is `Dump` |
| `Persistence.NeverAppliedTwice` | pg_logger.c:338-343 | after any first-time startup whose unlink succeeds, the next first-time startup finds no snapshot, changes no file and starts from zero |
| `Persistence.FailedUnlinkAppliesAgain` | pg_logger.c:333-343 | when the unlink after a successful load is refused, the file stays and the next first-time startup merges the same counts again |
| `Persistence.LoadAcceptsRecord` | pg_logger.c:316-336 | a file starting with a valid record is merged in, whatever follows it, and removed |
| `Persistence.LoadRejectsBadHeader` | pg_logger.c:329-331 | a full record with a wrong magic or version leaves all counters at zero and the file removed |
| `Persistence.DumpThenLoad` | pg_logger.c:355-375 | a clean dump and then a first-time load of the same version restore the four counters and leave neither file behind |
| `Persistence.DumpThenLoadOtherVersion` | pg_logger.c:330 | a snapshot dumped by one major version is discarded by another, leaving zeros and no file |
| `Persistence.CloseFailureLosesSnapshot` | pg_logger.c:373-377 | with a valid earlier snapshot on disk and only the flush at close failing, the dump ends in `CloseError` and the next startup reads a short file and starts from zero |
| `Persistence.DumpClosingFirst` | pg_logger.c:366-381 | the dump with the close and its check before the rename: the canonical file is either untouched or holds the whole record, and success is exactly when nothing fails |
| `Persistence.ClosingFirstKeepsSnapshot` | pg_logger.c:373-377 | with the close first, the same failed flush keeps the earlier snapshot, which the next startup restores |
| `Persistence.ClosingFirstAgrees` | pg_logger.c:366-381 | when the flush at close succeeds, both orders have the same effect and outcome |
| `Persistence.CleanRestart` | pg_logger.c:303-375 | shutdown, then startup of a new block through the two methods, gives the new block the old counts, and only the two snapshot paths change |
| `EventForwarder.FormatPayload` | pg_logger.c:223-227 | the payload fits the 1024-byte buffer with its NUL, is an initial part of the full text, always keeps the index line, and is complete exactly when the message has at most 946 characters |
| `EventForwarder.LongMessageLosesSuffix` | pg_logger.c:223-227 | a message of 949 characters or more is cut, and the payload ends inside it, without the closing suffix |
| `EventForwarder.EmitLogInternal` | pg_logger.c:199-244 | with the recursion guard set, no action at all; with no handle, no action; otherwise exactly two actions: the POST of the formatted payload to the fixed URL, then either the raise (on a transport failure, the handle is never released) or the release (on success) |
| `EventForwarder.EmitLog` | pg_logger.c:114-122 | the previous hook, if any, is called first, and the rest is the forwarding behaviour |

## Findings

| source | as written | input that shows it | evidently intended | confidence | as-written member | corrected member |
|---|---|---|---|---|---|---|
| pg_logger.c:373-377 | the record is only in the stdio buffer when `durable_rename` moves the still-empty temporary file over the snapshot; it reaches the disk at `FreeFile`, whose failure is only a warning | a clean shutdown with a valid earlier snapshot on disk, whose flush at close fails (for example `ENOSPC`): the snapshot becomes a short file, the next startup reads it, warns and starts from zero | close the file, and check the close, before renaming, so that the canonical file is either untouched or a whole record | medium, not executed | `Persistence.CloseFailureLosesSnapshot` | `Persistence.DumpClosingFirst` |

## Left out

- The HTTP transfer itself is not modelled (libcurl, URL options, response callback, `pg_logger.c:189-196` and `215-243`): it is network I/O in a foreign library. Handle creation and transport success are inputs.
- `elog(ERROR)`'s non-local exit and the re-entry of the hook with the failure message are not modelled: they belong to the server's error machinery. Only the guard's effect (no action when it is set) is stated.
- Inter-process concurrency is not modelled: shared-memory allocation, `LWLockAcquire`/`LWLockRelease` and the atomicity of `pg_atomic_*`. Counters are updated sequentially. Whether the block was `found` is an input.
- Host lifecycle glue is not modelled: `_PG_init`, `_PG_fini`, hook-pointer swapping, `RequestAddinShmemSpace`, the `on_shmem_exit` registration, and `pg_logger_shmem_startup`. The last of these only calls the previous startup hook before `pg_logger_shmem_startup_internal`, the same chaining `EmitLog` models.
- Tuple-descriptor and `heap_form_tuple` construction are not modelled: they are host API. `Get` returns the four columns as a sequence.
- `durable_rename`'s fsync calls and crash durability are not modelled: the rename is an atomic map update. The stdio buffering is modelled, but an operating-system crash after the close (which would lose bytes flushed after the fsync) is not.
- `ereport` warnings are not modelled as messages: the load's warnings and the dump's become outcome tags, except the load's close warning (`pg_logger.c:339-342`), which changes no state and has no tag of its own.
- A failed flush at close is modelled as writing a proper prefix of the buffer, of a length the environment chooses (`DumpFaults.closeWritten`).
- The native struct layout is not modelled: padding and host byte order are fixed to the packed little-endian layout.
- A failed `fwrite` is modelled as writing nothing; a partial write is not modelled.
- A NULL `edata->message` is not modelled: it is undefined behaviour for `%s`.
- The commented-out classification code (`pg_logger.c:246-262`) and the null-`shmem` check (`pg_logger.c:207-208`) are not modelled: no live path increments a counter except the load's merge.
- `pg_logger_get` and `pg_logger_reset` on a server where the extension was not preloaded are not modelled: there `shmem` is NULL and the C code dereferences it. In the model they are methods of an existing `CounterStore`.
- NeverAppliedTwice: holds only when the load's `unlink` succeeds, since the C code ignores its result; `FailedUnlinkAppliesAgain` states what happens otherwise.

=== FILE: byte_order.dfy ===
/**
 * Fixed-width unsigned integers and their little-endian byte images.
 *
 * The snapshot file is written with `fwrite` of native structs; this model
 * fixes one byte order (little-endian, as on x86-64 and AArch64 servers).
 */
module ByteOrder {

  type byte = b: int | 0 <= b < 0x100
  type uint32 = x: int | 0 <= x < 0x1_0000_0000
  type uint64 = x: int | 0 <= x < 0x1_0000_0000_0000_0000

  /** 256 to the power n: the number of distinct n-byte images. */
  function Pow256(n: nat): (r: nat)
    ensures r >= 1
  {
    if n == 0 then 1 else 256 * Pow256(n - 1)
  }

  /** The n low-order bytes of x, least significant first. */
  function LeBytes(x: nat, n: nat): (s: seq<byte>)
    ensures |s| == n
  {
    if n == 0 then [] else [x % 256] + LeBytes(x / 256, n - 1)
  }

  /** The number whose little-endian image is s. */
  function LeValue(s: seq<byte>): (x: nat)
    ensures x < Pow256(|s|)
  {
    if s == [] then 0
    else
      var rest := LeValue(s[1..]);
      assert rest <= Pow256(|s| - 1) - 1;
      assert 256 * rest <= 256 * Pow256(|s| - 1) - 256;
      s[0] + 256 * rest
  }

  /** Reading back an image gives the number it was made from. */
  lemma {:induction false} LeValueOfLeBytes(x: nat, n: nat)
    requires x < Pow256(n)
    ensures LeValue(LeBytes(x, n)) == x
  {
    if n > 0 {
      var s := LeBytes(x, n);
      assert s[1..] == LeBytes(x / 256, n - 1);
      assert x / 256 < Pow256(n - 1);
      LeValueOfLeBytes(x / 256, n - 1);
      assert LeValue(s) == x % 256 + 256 * (x / 256);
    }
  }

  /** Writing out a value read from bytes gives those same bytes back. */
  lemma {:induction false} LeBytesOfLeValue(s: seq<byte>)
    ensures LeBytes(LeValue(s), |s|) == s
  {
    if s != [] {
      var x := LeValue(s);
      var rest := LeValue(s[1..]);
      assert x == s[0] + 256 * rest;
      assert x % 256 == s[0] && x / 256 == rest;
      LeBytesOfLeValue(s[1..]);
      assert LeBytes(x, |s|) == [s[0]] + s[1..];
    }
  }

  lemma Pow256Values()
    ensures Pow256(4) == 0x1_0000_0000
    ensures Pow256(8) == 0x1_0000_0000_0000_0000
  {
  }

  /** The four bytes `fwrite` emits for a uint32 field. */
  function U32Bytes(x: uint32): (s: seq<byte>)
    ensures |s| == 4
  {
    LeBytes(x, 4)
  }

  /** The uint32 that `fread` fills in from four bytes. */
  function U32Of(s: seq<byte>): (x: uint32)
    requires |s| == 4
    ensures U32Bytes(x) == s
  {
    Pow256Values();
    LeBytesOfLeValue(s);
    LeValue(s)
  }

  /** The eight bytes `fwrite` emits for a uint64 field. */
  function U64Bytes(x: uint64): (s: seq<byte>)
    ensures |s| == 8
  {
    LeBytes(x, 8)
  }

  /** The uint64 that `fread` fills in from eight bytes. */
  function U64Of(s: seq<byte>): (x: uint64)
    requires |s| == 8
    ensures U64Bytes(x) == s
  {
    Pow256Values();
    LeBytesOfLeValue(s);
    LeValue(s)
  }

  lemma {:induction false} U32RoundTrip(x: uint32)
    ensures U32Of(U32Bytes(x)) == x
  {
    Pow256Values();
    LeValueOfLeBytes(x, 4);
  }

  lemma {:induction false} U64RoundTrip(x: uint64)
    ensures U64Of(U64Bytes(x)) == x
  {
    Pow256Values();
    LeValueOfLeBytes(x, 8);
  }
}

=== FILE: event_forwarder.dfy ===
/**
 * The log hook: call the previously installed hook, then, unless the server
 * is already in error-recursion trouble, format the event's message into a
 * two-line bulk-index payload and POST it to the fixed ingestion URL.
 *
 * The HTTP transfer itself is not modelled: whether a handle could be made
 * and whether the transfer succeeded are inputs, and what the hook does is
 * returned as a sequence of actions.
 */
module EventForwarder {

  /** Size of the `data` buffer the payload is printed into, NUL included. */
  const BufferSize: nat := 1024

  const IngestUrl: string := "http://interlog.logging.stg.s.o3.ru/_bulk"

  /** The format string's text before the `%s` conversion, line by line and field by field. */
  const IndexLine: CString := "{\"index\":\"seq-db\"}\n"
  const ServiceField: CString := "{\"service\":\"testing-t\","
  const AuditField: CString := "\"accessAudit\":\"true\","
  const MessageKey: CString := "\"message\":\""
  const PayloadPrefix: CString := IndexLine + ServiceField + AuditField + MessageKey

  /** The format string's text after the `%s` conversion. */
  const PayloadSuffix: CString := "\"}\n"

  /** The longest message whose payload fits the buffer untruncated. */
  const MaxMessage: nat := BufferSize - 1 - |PayloadPrefix| - |PayloadSuffix|

  /** The characters of a NUL-terminated C string, before its terminator. */
  type CString = s: string | '\0' !in s

  /** The payload with nothing cut off. */
  function FullPayload(message: CString): string
  {
    PayloadPrefix + message + PayloadSuffix
  }

  /**
   * The string `snprintf(data, 1024, ...)` leaves in `data`: the formatted
   * text, cut after 1023 characters so that the terminating NUL fits. The
   * message is inserted as it is, without any JSON escaping.
   */
  function FormatPayload(message: CString): (data: string)
    // it fits the buffer together with its terminator
    ensures |data| < BufferSize && '\0' !in data
    // it is an initial part of the full payload, and always holds the index line
    ensures data <= FullPayload(message) && PayloadPrefix <= data
    // it is complete exactly when the message is short enough
    ensures data == FullPayload(message) <==> |message| <= MaxMessage
    // otherwise it fills the whole buffer
    ensures |message| > MaxMessage ==> |data| == BufferSize - 1
  {
    var full := FullPayload(message);
    assert forall c :: c in full ==> c in PayloadPrefix || c in message || c in PayloadSuffix;
    if |full| < BufferSize then full
    else
      var cut := full[..BufferSize - 1];
      assert forall c :: c in cut ==> c in full;
      cut
  }

  /**
   * A message at least as long as the room left after the prefix is cut, and
   * the closing `"}` and newline are lost: the payload is not valid JSON.
   */
  lemma {:induction false} LongMessageLosesSuffix(message: CString)
    requires |message| >= BufferSize - 1 - |PayloadPrefix|
    ensures FormatPayload(message) == PayloadPrefix + message[..BufferSize - 1 - |PayloadPrefix|]
  {
  }

  /** What one call of the hook does, in order. */
  datatype Action =
    | PrevHook                         // the previously installed hook is called
    | Post(url: string, body: string)  // one blocking HTTP POST
    | ReportFailure                    // elog(ERROR): raises and does not return
    | Cleanup                          // the request handle is released

  /** What the forwarding part of the hook promises about its actions. */
  predicate Forwards(message: CString, inRecursionTrouble: bool, handleCreated: bool,
                     transportOk: bool, actions: seq<Action>)
  {
    var posted := !inRecursionTrouble && handleCreated;
    PrevHook !in actions &&
    // the recursion guard (and a missing handle) short-circuits everything
    (!posted ==> actions == []) &&
    // otherwise the first action is the single request, carrying the formatted payload
    (posted ==> |actions| == 2 && actions[0] == Post(IngestUrl, FormatPayload(message))) &&
    // after it comes exactly one action: the raise on a transport failure,
    // which does not return, so the handle is never released; or the release
    (ReportFailure in actions <==> posted && !transportOk) &&
    (Cleanup in actions <==> posted && transportOk)
  }

  /** `pg_logger_emit_log_internal`. */
  method EmitLogInternal(message: CString, inRecursionTrouble: bool, handleCreated: bool,
                         transportOk: bool)
    returns (actions: seq<Action>)
    ensures Forwards(message, inRecursionTrouble, handleCreated, transportOk, actions)
  {
    actions := [];
    if inRecursionTrouble {
      return;
    }
    if handleCreated {
      var data := FormatPayload(message);
      actions := actions + [Post(IngestUrl, data)];
      if !transportOk {
        actions := actions + [ReportFailure];
        return;
      }
      actions := actions + [Cleanup];
    }
  }

  /** `pg_logger_emit_log`: the previous hook first, then this module's own work. */
  method EmitLog(hasPrevHook: bool, message: CString, inRecursionTrouble: bool,
                 handleCreated: bool, transportOk: bool)
    returns (actions: seq<Action>)
    ensures |actions| > 0 && actions[0] == PrevHook <==> hasPrevHook
    ensures hasPrevHook ==>
      Forwards(message, inRecursionTrouble, handleCreated, transportOk, actions[1..])
    ensures !hasPrevHook ==>
      Forwards(message, inRecursionTrouble, handleCreated, transportOk, actions)
  {
    actions := [];
    if hasPrevHook {
      actions := [PrevHook];
    }
    var own := EmitLogInternal(message, inRecursionTrouble, handleCreated, transportOk);
    assert (actions + own)[|actions|..] == own;
    actions := actions + own;
  }
}

=== FILE: files.dfy ===
/**
 * The part of the file system the snapshot code touches: named byte files,
 * opened, written, renamed and unlinked. An operation that the operating
 * system may refuse takes a `fails` flag chosen by the environment.
 */
module Files {
  import opened ByteOrder

  type Path = string

  /** What `AllocateFile(path, PG_BINARY_R)` gives back. */
  datatype OpenResult = NotFound | OpenFailed | Opened(contents: seq<byte>)

  class FileSystem {
    var files: map<Path, seq<byte>>

    constructor (initial: map<Path, seq<byte>>)
      ensures files == initial
    {
      files := initial;
    }

    /**
     * Open for reading: a refusal (`EACCES`, `EMFILE`, `ENOMEM`, ...) is an
     * error whether or not the file exists; otherwise a missing file is `ENOENT`.
     */
    method OpenForRead(p: Path, fails: bool) returns (r: OpenResult)
      ensures p !in files ==> r == if fails then OpenFailed else NotFound
      ensures p in files ==> r == if fails then OpenFailed else Opened(files[p])
    {
      if fails {
        r := OpenFailed;
      } else if p !in files {
        r := NotFound;
      } else {
        r := Opened(files[p]);
      }
    }

    /** Open for writing: creates the file, or truncates it to empty. */
    method Create(p: Path, fails: bool) returns (ok: bool)
      modifies this
      ensures ok == !fails
      ensures files == if ok then old(files)[p := []] else old(files)
    {
      ok := !fails;
      if ok {
        files := files[p := []];
      }
    }

    /** One `fwrite` call: appends all of `data`, or (on failure) nothing. */
    method Append(p: Path, data: seq<byte>, fails: bool) returns (ok: bool)
      requires p in files
      modifies this
      ensures ok == !fails
      ensures files == if ok then old(files)[p := old(files)[p] + data] else old(files)
    {
      ok := !fails;
      if ok {
        files := files[p := files[p] + data];
      }
    }

    /** `durable_rename`: atomically moves `src` over `dst`, or changes nothing. */
    method Rename(src: Path, dst: Path, fails: bool) returns (ok: bool)
      requires src in files
      modifies this
      ensures ok == !fails
      ensures files == if ok then (old(files) - {src})[dst := old(files)[src]] else old(files)
    {
      ok := !fails;
      if ok {
        files := (files - {src})[dst := files[src]];
      }
    }

    /** `unlink`: removes the file, or (refused, or no such file) changes nothing. */
    method Unlink(p: Path, fails: bool) returns (ok: bool)
      modifies this
      ensures ok == (p in old(files) && !fails)
      ensures files == if fails then old(files) else old(files) - {p}
    {
      ok := p in files && !fails;
      if !fails {
        files := files - {p};
      }
    }
  }
}

=== FILE: persistence.dfy ===
/**
 * The snapshot file's life cycle: load once when the shared counter block is
 * first created, dump on a clean shutdown.
 *
 * Each of the two C routines is a method over the counter block and the file
 * system, proved against a pure function (`Load`, `Dump`) that states the
 * whole effect at once; the lemmas at the end are about those functions.
 */
module Persistence {
  import opened ByteOrder
  import opened SharedCounters
  import opened SnapshotFormat
  import opened Files

  datatype Option<T> = None | Some(value: T)

  /** `PG_LOGGER_DUMP_FILE`, under the server's permanent statistics directory. */
  const DumpFile: Path := "pg_stat/pg_logger.stat"
  const TmpFile: Path := DumpFile + ".tmp"

  lemma TmpFileIsNotDumpFile()
    ensures TmpFile != DumpFile
  {
  }

  // ---------------------------------------------------------------- load

  /** Refusals the environment may make while the snapshot is read and removed. */
  datatype LoadFaults = LoadFaults(openFails: bool, readFails: bool, unlinkFails: bool)

  const NoLoadFaults := LoadFaults(false, false, false)

  /**
   * How a startup ended: the block already existed; no snapshot file; the
   * file could not be opened; it could not be read in full; its header was
   * wrong; or it was merged in.
   */
  datatype LoadOutcome = Existing | Absent | OpenError | ReadError | BadHeader | Loaded

  datatype LoadResult = LoadResult(outcome: LoadOutcome, counters: Counters, files: map<Path, seq<byte>>)

  /**
   * The effect of `pg_logger_shmem_startup_internal`, given whether the block
   * was `found` already attached, its `current` contents, the files on disk
   * and the running server's major version.
   */
  function Load(found: bool, current: Counters, files: map<Path, seq<byte>>,
                faults: LoadFaults, pgVersion: uint32): (r: LoadResult)
    // an already existing block is neither zeroed nor loaded, and no file is touched
    ensures found ==> r == LoadResult(Existing, current, files)
    // no snapshot: zeroed counters and no file changed; the tag says whether
    // the open reported the file missing or failed for another reason
    ensures !found && DumpFile !in files ==>
      r == LoadResult(if faults.openFails then OpenError else Absent, Zero, files)
    // any other first-time start unlinks the snapshot and nothing else; a
    // refused unlink (its result is ignored) leaves the file where it was
    ensures !found && DumpFile in files ==>
      r.files == (if faults.unlinkFails then files else files - {DumpFile}) &&
      r.outcome != Existing && r.outcome != Absent
    // whatever is not merged in leaves the counters at zero
    ensures r.outcome != Existing && r.outcome != Loaded ==> r.counters == Zero
    // a file too short for one record is never merged
    ensures !found && DumpFile in files && |files[DumpFile]| < RecordSize ==>
      r.outcome == OpenError || r.outcome == ReadError
    // what is merged is exactly what the file's first 40 bytes record under a valid header
    ensures r.outcome == Loaded ==>
      DumpFile in files && |files[DumpFile]| >= RecordSize &&
      files[DumpFile][..RecordSize] == EncodeRecord(CurrentHeader(pgVersion), r.counters)
  {
    if found then LoadResult(Existing, current, files)
    else if DumpFile !in files then
      LoadResult(if faults.openFails then OpenError else Absent, Zero, files)
    else
      var remaining := if faults.unlinkFails then files else files - {DumpFile};
      if faults.openFails then LoadResult(OpenError, Zero, remaining)
      else if faults.readFails then LoadResult(ReadError, Zero, remaining)
      else
        match DecodeRecord(files[DumpFile])
        case ShortRead => LoadResult(ReadError, Zero, remaining)
        case Record(hdr, temp) =>
          if ValidHeader(hdr, pgVersion) then LoadResult(Loaded, Merge(Zero, temp), remaining)
          else LoadResult(BadHeader, Zero, remaining)
  }

  /**
   * `pg_logger_shmem_startup_internal` after the block is attached: unless it
   * already existed, zero it, try the snapshot, merge a valid one, and unlink
   * the file on every path except "no such file".
   */
  method ShmemStartupInternal(shmem: CounterStore, found: bool, fs: FileSystem,
                              faults: LoadFaults, pgVersion: uint32)
    returns (outcome: LoadOutcome)
    modifies shmem, fs
    ensures LoadResult(outcome, shmem.Value(), fs.files)
         == Load(found, old(shmem.Value()), old(fs.files), faults, pgVersion)
    ensures found ==> unchanged(shmem) && unchanged(fs)
  {
    if found {
      return Existing;
    }

    shmem.statementCancel := 0;
    shmem.statementTimeout := 0;
    shmem.lockTimeout := 0;
    shmem.idleInTxTimeout := 0;

    var f := fs.OpenForRead(DumpFile, faults.openFails);
    match f {
      case NotFound =>
        return Absent;
      case OpenFailed =>
        outcome := OpenError;
      case Opened(contents) =>
        var read := if faults.readFails then ShortRead else DecodeRecord(contents);
        match read {
          case ShortRead =>
            outcome := ReadError;
          case Record(hdr, temp) =>
            if !ValidHeader(hdr, pgVersion) {
              outcome := BadHeader;
            } else {
              shmem.Add(temp);
              outcome := Loaded;
            }
        }
    }
    assert DumpFile !in old(fs.files) ==> old(fs.files) - {DumpFile} == old(fs.files);
    var removed := fs.Unlink(DumpFile, faults.unlinkFails);
  }

  // ---------------------------------------------------------------- dump

  /**
   * Refusals the environment may make while the snapshot is written. A
   * failing close flushes only the first `closeWritten` bytes of the stream's
   * buffer (never all of a non-empty one).
   */
  datatype DumpFaults = DumpFaults(openFails: bool, headerWriteFails: bool,
                                   countersWriteFails: bool, renameFails: bool,
                                   closeFails: bool, closeWritten: nat)
  {
    predicate NoneFail()
    {
      !openFails && !headerWriteFails && !countersWriteFails && !renameFails && !closeFails
    }
  }

  const NoDumpFaults := DumpFaults(false, false, false, false, false, 0)

  /** How a shutdown dump ended. */
  datatype DumpOutcome = Skipped | TmpOpenError | WriteError | RenameError | CloseError | Dumped

  datatype DumpResult = DumpResult(outcome: DumpOutcome, files: map<Path, seq<byte>>)

  /**
   * What `fwrite` leaves in the stream's buffer: the header, then the
   * counters, stopping at the first refused write.
   */
  function Buffered(hdr: Header, c: Counters, faults: DumpFaults): (buffer: seq<byte>)
    ensures buffer <= EncodeRecord(hdr, c)
    ensures buffer == EncodeRecord(hdr, c) <==> !faults.headerWriteFails && !faults.countersWriteFails
  {
    if faults.headerWriteFails then []
    else if faults.countersWriteFails then EncodeHeader(hdr)
    else EncodeRecord(hdr, c)
  }

  /** What `FreeFile` gets onto the disk from the stream's buffer. */
  function Flushed(buffer: seq<byte>, faults: DumpFaults): (out: seq<byte>)
    ensures out <= buffer
    ensures out == buffer <==> !faults.closeFails || buffer == []
  {
    if !faults.closeFails || buffer == [] then buffer
    else if faults.closeWritten < |buffer| then buffer[..faults.closeWritten]
    else buffer[..|buffer| - 1]
  }

  /**
   * The effect of `pg_logger_shmem_shutdown(code, ...)`, where `shmem` is the
   * attached counter block, if any. The two `fwrite` calls only fill the
   * stream's buffer, the file (still empty on disk) is renamed, and the
   * record reaches it when `FreeFile` flushes the buffer, under whichever
   * name the file then has.
   */
  function Dump(code: int, shmem: Option<Counters>, files: map<Path, seq<byte>>,
                faults: DumpFaults, pgVersion: uint32): (r: DumpResult)
    // a crash exit or an unattached block writes nothing
    ensures code != 0 || shmem.None? ==> r == DumpResult(Skipped, files)
    // only the temporary and the canonical path can change
    ensures r.files - {TmpFile, DumpFile} == files - {TmpFile, DumpFile}
    // when the writes or the rename fail, the canonical file is left as it was
    ensures r.outcome != Dumped && r.outcome != CloseError ==>
      (DumpFile in r.files <==> DumpFile in files) &&
      (DumpFile in files ==> r.files[DumpFile] == files[DumpFile])
    ensures r.outcome == Dumped ==>
      shmem.Some? && TmpFile !in r.files && DumpFile in r.files &&
      r.files[DumpFile] == EncodeRecord(CurrentHeader(pgVersion), shmem.value)
    // when only the flush at close fails, the renamed file holds a proper
    // part of the record and the previous snapshot is gone
    ensures r.outcome == CloseError ==>
      shmem.Some? && TmpFile !in r.files && DumpFile in r.files &&
      |r.files[DumpFile]| < RecordSize &&
      r.files[DumpFile] <= EncodeRecord(CurrentHeader(pgVersion), shmem.value)
    // the dump completes exactly when it is not skipped and nothing fails
    ensures r.outcome == Dumped <==> code == 0 && shmem.Some? && faults.NoneFail()
  {
    TmpFileIsNotDumpFile();
    if code != 0 || shmem.None? then DumpResult(Skipped, files)
    else if faults.openFails then DumpResult(TmpOpenError, files)
    else
      var hdr := CurrentHeader(pgVersion);
      var buffer := Buffered(hdr, shmem.value, faults);
      var created := files[TmpFile := []];
      var flushed := Flushed(buffer, faults);
      if faults.headerWriteFails || faults.countersWriteFails then
        DumpResult(WriteError, created[TmpFile := flushed])
      else if faults.renameFails then
        DumpResult(RenameError, created[TmpFile := flushed])
      else
        var renamed := (created - {TmpFile})[DumpFile := flushed];
        DumpResult(if faults.closeFails then CloseError else Dumped, renamed)
  }

  /**
   * `pg_logger_shmem_shutdown`: unless the exit is a crash or no block is
   * attached, write header and counters through a buffered stream on the
   * temporary file, rename it over the canonical path if both writes
   * succeeded, and then close the stream.
   */
  method ShmemShutdown(code: int, shmem: CounterStore?, fs: FileSystem,
                       faults: DumpFaults, pgVersion: uint32)
    returns (outcome: DumpOutcome)
    modifies fs
    ensures DumpResult(outcome, fs.files)
         == Dump(code, if shmem == null then None else Some(shmem.Value()),
                 old(fs.files), faults, pgVersion)
  {
    var hdr := CurrentHeader(pgVersion);
    if code != 0 || shmem == null {
      return Skipped;
    }

    var ok := fs.Create(TmpFile, faults.openFails);
    if !ok {
      return TmpOpenError;
    }
    // the stream's buffer: `fwrite` appends here, not to the file
    var buffer: seq<byte> := [];
    var wrote := !faults.headerWriteFails;
    if wrote {
      buffer := buffer + EncodeHeader(hdr);
      wrote := !faults.countersWriteFails;
      if wrote {
        buffer := buffer + EncodeCounters(shmem.Value());
      }
    }
    assert buffer == Buffered(hdr, shmem.Value(), faults);

    var flushed := Flushed(buffer, faults);
    ghost var created := old(fs.files)[TmpFile := []];
    assert [] + flushed == flushed;
    TmpFileIsNotDumpFile();

    // the open stream follows its file to the new name, and `FreeFile`
    // flushes the buffer into it there
    if !wrote {
      outcome := WriteError;
      ok := fs.Append(TmpFile, flushed, false);
      assert fs.files == created[TmpFile := flushed];
    } else {
      var renamed := fs.Rename(TmpFile, DumpFile, faults.renameFails);
      if renamed {
        ok := fs.Append(DumpFile, flushed, false);
        assert fs.files == (created - {TmpFile})[DumpFile := flushed];
        outcome := if faults.closeFails then CloseError else Dumped;
      } else {
        outcome := RenameError;
        ok := fs.Append(TmpFile, flushed, false);
        assert fs.files == created[TmpFile := flushed];
      }
    }
  }

  /**
   * The dump with the stream closed, and its flush checked, before the
   * rename: the order in which the canonical file can only ever be replaced
   * by a whole record.
   */
  function DumpClosingFirst(code: int, shmem: Option<Counters>, files: map<Path, seq<byte>>,
                            faults: DumpFaults, pgVersion: uint32): (r: DumpResult)
    ensures code != 0 || shmem.None? ==> r == DumpResult(Skipped, files)
    ensures r.files - {TmpFile, DumpFile} == files - {TmpFile, DumpFile}
    // the canonical file is either left as it was or replaced by a whole record
    ensures r.outcome != Dumped ==>
      (DumpFile in r.files <==> DumpFile in files) &&
      (DumpFile in files ==> r.files[DumpFile] == files[DumpFile])
    ensures r.outcome == Dumped ==>
      shmem.Some? && TmpFile !in r.files && DumpFile in r.files &&
      r.files[DumpFile] == EncodeRecord(CurrentHeader(pgVersion), shmem.value)
    ensures r.outcome == Dumped <==> code == 0 && shmem.Some? && faults.NoneFail()
  {
    TmpFileIsNotDumpFile();
    if code != 0 || shmem.None? then DumpResult(Skipped, files)
    else if faults.openFails then DumpResult(TmpOpenError, files)
    else
      var hdr := CurrentHeader(pgVersion);
      var buffer := Buffered(hdr, shmem.value, faults);
      var closed := files[TmpFile := Flushed(buffer, faults)];
      if faults.headerWriteFails || faults.countersWriteFails then DumpResult(WriteError, closed)
      else if faults.closeFails then DumpResult(CloseError, closed)
      else if faults.renameFails then DumpResult(RenameError, closed)
      else DumpResult(Dumped, (closed - {TmpFile})[DumpFile := buffer])
  }

  // ---------------------------------------------------------------- properties

  /**
   * A snapshot is never applied twice: after any first-time startup whose
   * unlink was not refused, the next first-time startup finds no file and
   * starts from zero, whatever its open reports.
   */
  lemma {:induction false} NeverAppliedTwice(c1: Counters, c2: Counters, files: map<Path, seq<byte>>,
                                             f1: LoadFaults, f2: LoadFaults, v1: uint32, v2: uint32)
    requires !f1.unlinkFails
    ensures var first := Load(false, c1, files, f1, v1);
            Load(false, c2, first.files, f2, v2)
              == LoadResult(if f2.openFails then OpenError else Absent, Zero, first.files)
  {
  }

  /**
   * When the unlink after a successful load is refused, the snapshot stays,
   * and the next first-time startup merges the same counts again.
   */
  lemma {:induction false} FailedUnlinkAppliesAgain(c1: Counters, c2: Counters,
                                                    files: map<Path, seq<byte>>,
                                                    c: Counters, trailing: seq<byte>, pgVersion: uint32)
    requires DumpFile in files
    requires files[DumpFile] == EncodeRecord(CurrentHeader(pgVersion), c) + trailing
    ensures var first := Load(false, c1, files, LoadFaults(false, false, true), pgVersion);
            first == LoadResult(Loaded, c, files) &&
            Load(false, c2, first.files, NoLoadFaults, pgVersion) == LoadResult(Loaded, c, files - {DumpFile})
  {
    RecordRoundTrip(CurrentHeader(pgVersion), c, trailing);
  }

  /** A file that starts with a valid record is merged in, whatever follows it. */
  lemma {:induction false} LoadAcceptsRecord(current: Counters, files: map<Path, seq<byte>>,
                                             c: Counters, trailing: seq<byte>, pgVersion: uint32)
    requires DumpFile in files
    requires files[DumpFile] == EncodeRecord(CurrentHeader(pgVersion), c) + trailing
    ensures Load(false, current, files, NoLoadFaults, pgVersion) == LoadResult(Loaded, c, files - {DumpFile})
  {
    RecordRoundTrip(CurrentHeader(pgVersion), c, trailing);
  }

  /**
   * A full record whose magic or version is wrong is discarded entirely:
   * counters stay zero and the file is removed.
   */
  lemma {:induction false} LoadRejectsBadHeader(current: Counters, files: map<Path, seq<byte>>,
                                                h: Header, c: Counters, trailing: seq<byte>,
                                                pgVersion: uint32)
    requires DumpFile in files
    requires files[DumpFile] == EncodeRecord(h, c) + trailing
    requires h.magic != HeaderMagic || h.pgVersionNum != pgVersion
    ensures Load(false, current, files, NoLoadFaults, pgVersion) == LoadResult(BadHeader, Zero, files - {DumpFile})
  {
    RecordRoundTrip(h, c, trailing);
  }

  /**
   * Clean dump followed by a first-time startup of the same server version
   * restores the four counters and leaves neither file behind.
   */
  lemma {:induction false} DumpThenLoad(c: Counters, current: Counters, files: map<Path, seq<byte>>,
                                        pgVersion: uint32)
    ensures var d := Dump(0, Some(c), files, NoDumpFaults, pgVersion);
            var l := Load(false, current, d.files, NoLoadFaults, pgVersion);
            d.outcome == Dumped && l == LoadResult(Loaded, c, files - {TmpFile, DumpFile})
  {
    var d := Dump(0, Some(c), files, NoDumpFaults, pgVersion);
    assert d.files[DumpFile] == EncodeRecord(CurrentHeader(pgVersion), c) + [];
    LoadAcceptsRecord(current, d.files, c, [], pgVersion);
    assert d.files - {DumpFile} == files - {TmpFile, DumpFile};
  }

  /** A snapshot dumped by one major version is discarded by another. */
  lemma {:induction false} DumpThenLoadOtherVersion(c: Counters, current: Counters,
                                                    files: map<Path, seq<byte>>,
                                                    dumpVersion: uint32, loadVersion: uint32)
    requires dumpVersion != loadVersion
    ensures var d := Dump(0, Some(c), files, NoDumpFaults, dumpVersion);
            var l := Load(false, current, d.files, NoLoadFaults, loadVersion);
            l == LoadResult(BadHeader, Zero, files - {TmpFile, DumpFile})
  {
    var d := Dump(0, Some(c), files, NoDumpFaults, dumpVersion);
    assert d.files[DumpFile] == EncodeRecord(CurrentHeader(dumpVersion), c) + [];
    LoadRejectsBadHeader(current, d.files, CurrentHeader(dumpVersion), c, [], loadVersion);
    assert d.files - {DumpFile} == files - {TmpFile, DumpFile};
  }

  /**
   * A failed flush at close, with a valid snapshot from an earlier dump on
   * disk: the dump as written destroys that snapshot, so the next startup
   * reads a short file and starts from zero.
   */
  lemma {:induction false} CloseFailureLosesSnapshot(previous: Counters, c: Counters, current: Counters,
                                                     files: map<Path, seq<byte>>, pgVersion: uint32,
                                                     written: nat)
    requires DumpFile in files
    requires files[DumpFile] == EncodeRecord(CurrentHeader(pgVersion), previous)
    ensures var faults := DumpFaults(false, false, false, false, true, written);
            var d := Dump(0, Some(c), files, faults, pgVersion);
            d.outcome == CloseError &&
            Load(false, current, d.files, NoLoadFaults, pgVersion) == LoadResult(ReadError, Zero, d.files - {DumpFile})
  {
  }

  /**
   * The same failure with the stream closed first keeps the earlier
   * snapshot, which the next startup restores.
   */
  lemma {:induction false} ClosingFirstKeepsSnapshot(previous: Counters, c: Counters, current: Counters,
                                                     files: map<Path, seq<byte>>, pgVersion: uint32,
                                                     written: nat)
    requires DumpFile in files
    requires files[DumpFile] == EncodeRecord(CurrentHeader(pgVersion), previous)
    ensures var faults := DumpFaults(false, false, false, false, true, written);
            var d := DumpClosingFirst(0, Some(c), files, faults, pgVersion);
            d.outcome == CloseError &&
            Load(false, current, d.files, NoLoadFaults, pgVersion) == LoadResult(Loaded, previous, d.files - {DumpFile})
  {
    var faults := DumpFaults(false, false, false, false, true, written);
    var d := DumpClosingFirst(0, Some(c), files, faults, pgVersion);
    assert d.files[DumpFile] == EncodeRecord(CurrentHeader(pgVersion), previous) + [];
    LoadAcceptsRecord(current, d.files, previous, [], pgVersion);
  }

  /** Where the flush at close succeeds, both orders have the same effect. */
  lemma {:induction false} ClosingFirstAgrees(code: int, shmem: Option<Counters>,
                                              files: map<Path, seq<byte>>, faults: DumpFaults,
                                              pgVersion: uint32)
    requires !faults.closeFails
    ensures DumpClosingFirst(code, shmem, files, faults, pgVersion) == Dump(code, shmem, files, faults, pgVersion)
  {
  }

  /**
   * A clean shutdown and a restart, run through the two methods: the new
   * block, whatever memory it was given, ends with the old block's counts.
   */
  method CleanRestart(store: CounterStore, fs: FileSystem, initial: Counters, pgVersion: uint32)
    returns (restarted: CounterStore, dumped: DumpOutcome, loaded: LoadOutcome)
    modifies fs
    ensures dumped == Dumped && loaded == Loaded
    ensures restarted.Value() == store.Value()
    ensures fs.files == old(fs.files) - {TmpFile, DumpFile}
  {
    DumpThenLoad(store.Value(), initial, fs.files, pgVersion);
    dumped := ShmemShutdown(0, store, fs, NoDumpFaults, pgVersion);
    restarted := new CounterStore(initial);
    loaded := ShmemStartupInternal(restarted, false, fs, NoLoadFaults, pgVersion);
  }
}

=== FILE: shared_counters.dfy ===
/**
 * The counter block kept in shared memory: four unsigned 64-bit counters.
 *
 * The server updates them with per-field atomic operations; this model runs
 * every atomic read, write, exchange and add as a plain field operation, one
 * after the other.
 */
module SharedCounters {
  import opened ByteOrder

  /** The value of the four counters at one moment. */
  datatype Counters = Counters(
    statementCancel: uint64,
    statementTimeout: uint64,
    lockTimeout: uint64,
    idleInTxTimeout: uint64)

  const Zero := Counters(0, 0, 0, 0)

  /** `pg_atomic_add_fetch_u64`: addition modulo 2^64. */
  function AddWrap(x: uint64, y: uint64): (r: uint64)
    ensures x + y < 0x1_0000_0000_0000_0000 ==> r == x + y
    ensures x + y >= 0x1_0000_0000_0000_0000 ==> r == x + y - 0x1_0000_0000_0000_0000
  {
    (x + y) % 0x1_0000_0000_0000_0000
  }

  /** Field-by-field additive merge of `delta` into `base`. */
  function Merge(base: Counters, delta: Counters): (r: Counters)
    ensures base == Zero ==> r == delta
    ensures delta == Zero ==> r == base
  {
    Counters(
      AddWrap(base.statementCancel, delta.statementCancel),
      AddWrap(base.statementTimeout, delta.statementTimeout),
      AddWrap(base.lockTimeout, delta.lockTimeout),
      AddWrap(base.idleInTxTimeout, delta.idleInTxTimeout))
  }

  /** Column names of the row returned by `pg_logger_get`, in order. */
  const ColumnNames: seq<string> :=
    ["messages_processed", "messages_dropped", "lock_timeout", "idle_in_tx_timeout"]

  type int64 = x: int | -0x8000_0000_0000_0000 <= x < 0x8000_0000_0000_0000

  /**
   * A counter put into a column declared `bigint` (signed): the 64 bits are
   * kept, so a counter of 2^63 or more reads back as a negative number.
   */
  function AsBigint(x: uint64): (r: int64)
    // the same 64 bits: the signed reading is congruent to the counter modulo 2^64
    ensures r % 0x1_0000_0000_0000_0000 == x
  {
    if x < 0x8000_0000_0000_0000 then x else x - 0x1_0000_0000_0000_0000
  }

  /** One attribute of the returned row. */
  datatype Column = Column(name: string, value: int64, isNull: bool)

  /** The shared `pg_logger_counter` struct. */
  class CounterStore {
    var statementCancel: uint64
    var statementTimeout: uint64
    var lockTimeout: uint64
    var idleInTxTimeout: uint64

    /** The counters as one value. */
    function Value(): Counters
      reads this
    {
      Counters(statementCancel, statementTimeout, lockTimeout, idleInTxTimeout)
    }

    /** A block holding whatever the segment held when it was attached. */
    constructor (initial: Counters)
      ensures Value() == initial
    {
      statementCancel := initial.statementCancel;
      statementTimeout := initial.statementTimeout;
      lockTimeout := initial.lockTimeout;
      idleInTxTimeout := initial.idleInTxTimeout;
    }

    /** `pg_logger_reset`: every counter is written to zero, one at a time. */
    method Reset()
      modifies this
      ensures Value() == Zero
    {
      statementCancel := 0;
      statementTimeout := 0;
      lockTimeout := 0;
      idleInTxTimeout := 0;
    }

    /**
     * `pg_logger_get`: four non-null `bigint` columns; the first two are
     * labelled messages_processed and messages_dropped but carry
     * statement_cancel and statement_timeout.
     */
    method Get() returns (row: seq<Column>)
      ensures |row| == 4
      ensures forall i :: 0 <= i < |row| ==> row[i].name == ColumnNames[i] && !row[i].isNull
      ensures row[0].value == AsBigint(statementCancel) && row[1].value == AsBigint(statementTimeout)
      ensures row[2].value == AsBigint(lockTimeout) && row[3].value == AsBigint(idleInTxTimeout)
    {
      var values := new int64[4];
      var nulls := new bool[4];
      values[0] := AsBigint(statementCancel);
      nulls[0] := false;
      values[1] := AsBigint(statementTimeout);
      nulls[1] := false;
      values[2] := AsBigint(lockTimeout);
      nulls[2] := false;
      values[3] := AsBigint(idleInTxTimeout);
      nulls[3] := false;
      row := [
        Column(ColumnNames[0], values[0], nulls[0]),
        Column(ColumnNames[1], values[1], nulls[1]),
        Column(ColumnNames[2], values[2], nulls[2]),
        Column(ColumnNames[3], values[3], nulls[3])];
    }

    /** The four `pg_atomic_add_fetch_u64` calls that fold a snapshot in. */
    method Add(delta: Counters)
      modifies this
      ensures Value() == Merge(old(Value()), delta)
    {
      statementCancel := AddWrap(statementCancel, delta.statementCancel);
      statementTimeout := AddWrap(statementTimeout, delta.statementTimeout);
      lockTimeout := AddWrap(lockTimeout, delta.lockTimeout);
      idleInTxTimeout := AddWrap(idleInTxTimeout, delta.idleInTxTimeout);
    }
  }

  /** A reset followed by a read (no writer in between) reports all zeros. */
  method ResetThenGet(store: CounterStore) returns (row: seq<Column>)
    modifies store
    ensures |row| == 4
    ensures forall i :: 0 <= i < |row| ==> row[i].value == 0 && !row[i].isNull
  {
    store.Reset();
    row := store.Get();
  }
}

=== FILE: snapshot_format.dfy ===
/**
 * The on-disk snapshot record: an 8-byte header (magic, server major
 * version) followed by the four counters, 8 bytes each, 40 bytes in all.
 */
module SnapshotFormat {
  import opened ByteOrder
  import opened SharedCounters

  /** `PG_LOGGER_HEADER_MAGIC`. */
  const HeaderMagic: uint32 := 0xF000_0001

  const HeaderSize: nat := 8
  const CountersSize: nat := 32
  const RecordSize: nat := HeaderSize + CountersSize

  /** The `pg_logger_header` struct. */
  datatype Header = Header(magic: uint32, pgVersionNum: uint32)

  /** The header a server of major version `pgVersion` writes. */
  function CurrentHeader(pgVersion: uint32): (h: Header)
    ensures ValidHeader(h, pgVersion)
  {
    Header(HeaderMagic, pgVersion)
  }

  /** The check a loaded header must pass: right magic and same major version. */
  predicate ValidHeader(h: Header, pgVersion: uint32)
  {
    h.magic == HeaderMagic && h.pgVersionNum == pgVersion
  }

  /** A loaded header passes exactly when its 8 bytes are the ones the dump writes. */
  lemma {:induction false} ValidHeaderOnBytes(s: seq<byte>, pgVersion: uint32)
    requires |s| == HeaderSize
    ensures ValidHeader(DecodeHeader(s), pgVersion) <==> s == EncodeHeader(CurrentHeader(pgVersion))
  {
    HeaderRoundTrip(CurrentHeader(pgVersion));
  }

  function EncodeHeader(h: Header): (s: seq<byte>)
    ensures |s| == HeaderSize
  {
    U32Bytes(h.magic) + U32Bytes(h.pgVersionNum)
  }

  function DecodeHeader(s: seq<byte>): (h: Header)
    requires |s| == HeaderSize
    ensures EncodeHeader(h) == s
  {
    assert s == s[..4] + s[4..];
    Header(U32Of(s[..4]), U32Of(s[4..]))
  }

  function EncodeCounters(c: Counters): (s: seq<byte>)
    ensures |s| == CountersSize
  {
    U64Bytes(c.statementCancel) + U64Bytes(c.statementTimeout)
      + U64Bytes(c.lockTimeout) + U64Bytes(c.idleInTxTimeout)
  }

  function DecodeCounters(s: seq<byte>): (c: Counters)
    requires |s| == CountersSize
    ensures EncodeCounters(c) == s
  {
    assert s == s[..8] + s[8..16] + s[16..24] + s[24..];
    Counters(U64Of(s[..8]), U64Of(s[8..16]), U64Of(s[16..24]), U64Of(s[24..]))
  }

  lemma {:induction false} HeaderRoundTrip(h: Header)
    ensures DecodeHeader(EncodeHeader(h)) == h
  {
    var s := EncodeHeader(h);
    assert s[..4] == U32Bytes(h.magic) && s[4..] == U32Bytes(h.pgVersionNum);
    U32RoundTrip(h.magic);
    U32RoundTrip(h.pgVersionNum);
  }

  lemma {:induction false} CountersRoundTrip(c: Counters)
    ensures DecodeCounters(EncodeCounters(c)) == c
  {
    var s := EncodeCounters(c);
    assert s[..8] == U64Bytes(c.statementCancel);
    assert s[8..16] == U64Bytes(c.statementTimeout);
    assert s[16..24] == U64Bytes(c.lockTimeout);
    assert s[24..] == U64Bytes(c.idleInTxTimeout);
    U64RoundTrip(c.statementCancel);
    U64RoundTrip(c.statementTimeout);
    U64RoundTrip(c.lockTimeout);
    U64RoundTrip(c.idleInTxTimeout);
  }

  /** The 40 bytes the dump writes: `fwrite` of the header, then of the counters. */
  function EncodeRecord(h: Header, c: Counters): (s: seq<byte>)
    ensures |s| == RecordSize
    // the field offsets: magic 0, version 4, then the counters at 8, 16, 24 and 32
    ensures s[..4] == U32Bytes(h.magic) && s[4..8] == U32Bytes(h.pgVersionNum)
    ensures s[8..16] == U64Bytes(c.statementCancel) && s[16..24] == U64Bytes(c.statementTimeout)
    ensures s[24..32] == U64Bytes(c.lockTimeout) && s[32..] == U64Bytes(c.idleInTxTimeout)
  {
    EncodeHeader(h) + EncodeCounters(c)
  }

  /** What the two `fread` calls of the load produce. */
  datatype ReadResult = ShortRead | Record(header: Header, counters: Counters)

  /**
   * Reads one header and one counter block from the start of a file.
   * Only a file too short for both is refused; bytes past the record are
   * never looked at.
   */
  function DecodeRecord(s: seq<byte>): (r: ReadResult)
    ensures r.ShortRead? <==> |s| < RecordSize
    ensures r.Record? ==> EncodeRecord(r.header, r.counters) == s[..RecordSize]
  {
    if |s| < HeaderSize then ShortRead
    else
      var hdr := DecodeHeader(s[..HeaderSize]);
      if |s| - HeaderSize < CountersSize then ShortRead
      else
        var temp := DecodeCounters(s[HeaderSize..RecordSize]);
        assert s[..RecordSize] == s[..HeaderSize] + s[HeaderSize..RecordSize];
        Record(hdr, temp)
  }

  /** Decoding a written record, whatever follows it, gives back what was written. */
  lemma {:induction false} RecordRoundTrip(h: Header, c: Counters, trailing: seq<byte>)
    ensures DecodeRecord(EncodeRecord(h, c) + trailing) == Record(h, c)
  {
    var s := EncodeRecord(h, c) + trailing;
    assert s[..HeaderSize] == EncodeHeader(h);
    assert s[HeaderSize..RecordSize] == EncodeCounters(c);
    HeaderRoundTrip(h);
    CountersRoundTrip(c);
  }
}
